=== FILE: README.md ===
# Offline-first catch log, modelled in Dafny

This project models the core of a small mobile app that logs fish catches on
a device whose connection comes and goes. The core has four parts.

- **The catch store** (`src/useCatchesStore.ts`) holds the catch list. It
  also keeps two offline queues: `createdIDs` for catches created offline and
  `deletedIDs` for ids deleted offline. It keeps the failure lists of the
  last sync and a `fetchStatus`.
  - `create` and `delete` apply changes optimistically. Offline they queue the
    change. Online they call the server and roll back on failure.
  - `get` replaces the list with the server's.
  - `sync` flushes both queues as one bulk create and one bulk delete.
  - `updateStorage` and `hydrateFromStorage` write and read the durable
    record, which leaves out `fetchStatus`.
- **The connectivity flag** (`src/useNetworkStore.ts`). It is persisted
  under the key `"network"`. The app runs `sync` when the flag goes from
  not-true to true (`src/App.tsx`).
- **The request envelope** (`src/utils/request.ts`). This covers the body
  check for POST/PUT, the header merge with a bearer token, and the mapping
  of failures to `{data: null, error: {code, message}}`.
- **The toast store** (`src/useToast.ts`). This covers `show`, `showError`,
  `showSuccess`, `hide` and `onHide`.

Every action is a pure function. A store action takes the state, the
online flag, the injected temporary id and the outcome the remote call
reports (`Outcome = Ok(payload) | Err(code, message)`). It returns a `Step`
holding:

- the new state,
- the record written to durable storage, if any,
- the remote calls issued, in order,
- the action's `RequestResponse`.

Durable storage is a `map<string, …>`.

Modules: `Types` (entities, envelope and enums), `Seqs` (order-preserving
filter), `CatchList` (list operations of the store), `CatchesStore` (the
actions), `CatchesLaws` (round trips, invariants, traces), `Request`,
`NetworkStore`, `Toast`, `Session` (the flag-change effect that runs
`sync`).

## Notes on the code

Each point below is what the code does; the model follows it.

- `fetchStatus` never changes. `FetchStatus` declares FETCHING, SUCCESS and
  FAIL (`src/enums.ts:1-6`), but no action of the store sets any of them,
  so every reachable state is `UNFETCHED`
  (`CatchesLaws.NeverLeavesUnfetched`). The screen's effect
  (`src/CatchesScreen.tsx:65-72`) calls `get` while the status is
  `UNFETCHED` and the device is online, and so fires again on every
  connectivity change to online.
- `sync` never writes server ids back. The `filter` at
  `src/useCatchesStore.ts:263` discards its result, so the catch list is
  the same after `sync` as before.
- An online `delete` does not touch `createdIDs`. The offline branch
  (`src/useCatchesStore.ts:155-166`) treats `createdIDs` as naming catches
  still in the list, and drops the id from it. An offline create followed
  by an online delete leaves a queued id whose catch is gone
  (`CatchesLaws.OnlineDeleteLeavesQueuedID`). A successful `get` can do the
  same. The invariant `CatchesLaws.Valid` holds along any trace of offline
  actions and syncs.
- `get` does not persist the list it fetched. Memory and storage differ
  until the next write.
- Hydration keeps the in-memory `fetchStatus`. It does not reset it.
- The store's `set` merges fields. `hide`/`onHide` call
  `set(initialState)`, and `initialState` has no `onActionPress` key, so
  that callback survives a hide. All other fields return to their initial
  values.
- In `show`, the options are spread after `title`. A `title` inside the
  options therefore wins over the `title` argument.
- `types.ts` types error codes as strings, but `request` produces numbers;
  they are `int` here. A delete failure from a transport error stores the
  whole error object, not a string (`DeleteReason.Transport`). A create
  failure from a transport error carries `errors: {}`, modelled as an empty
  list.

## Model

| member | source | states |
|---|---|---|
| `Types.AsResponse` | src/types.ts:39-45 | a remote outcome's envelope populates exactly one of `data` and `error`; `Ok` fills `data` with the payload, `Err` fills `error` with its code and message |
| `CatchList.RemoveId` | src/useCatchesStore.ts:129-140 | the optimistic list holds exactly the catches whose id differs from the deleted one |
| `CatchList.RemoveIdAt` | src/useCatchesStore.ts:134-140 | with unique ids, deleting the id at position i yields the list with exactly position i cut out, others in order |
| `CatchList.RemoveAppended` | src/useCatchesStore.ts:119 | rolling back a create by filtering out the fresh temp id gives back exactly the pre-call list |
| `CatchList.ReplaceId` | src/useCatchesStore.ts:105-111 | id replacement keeps length and every entry's metadata, changes only entries carrying the temp id, and gives those the server id |
| `CatchList.ReplaceAppended` | src/useCatchesStore.ts:105-111 | replacing a fresh temp id appended last changes only that last entry: list = old list + [catch with the server id] |
| `CatchList.LastWithId` | src/useCatchesStore.ts:131-143 | the reported deleted catch exists exactly when some catch carries the id, and then it is the catch at the last position carrying that id, since the loop overwrites its pick on every match |
| `CatchList.CreateBatch` | src/useCatchesStore.ts:243-247 | the create batch holds exactly the catches whose id is queued; it is empty exactly when no queued id names a catch |
| `CatchList.CreateBatchAppend` | src/useCatchesStore.ts:243-247 | batch selection preserves list order (the batch of a concatenation is the concatenation of batches) |
| `CatchesStore.Hydrate` | src/useCatchesStore.ts:213-222 | with no stored record the state is unchanged; otherwise the five durable fields come from storage and `fetchStatus` is kept |
| `CatchesStore.Create` | src/useCatchesStore.ts:76-125 | offline: one catch `{meta, tempID}` appended at the end, `tempID` queued, no call, that catch returned with no error; online success: list = old + [catch with the server id], server catch returned; online failure: list equals the pre-call list and the result carries the submitted meta and the error; every path persists the new durable state |
| `CatchesStore.Delete` | src/useCatchesStore.ts:127-201 | unknown id: code 3, state unchanged, nothing written, no call; offline and online success: the list is the pre-call list with every entry of that id removed, the others kept in order with their repeats; offline: id removed from the list and dropped from `createdIDs` if queued there (deletedIDs unchanged), else appended to `deletedIDs`; online failure: state equals the pre-call state; online success: entries with that id removed and `createdIDs` untouched; on success the reported catch is the last one carrying the id |
| `CatchesStore.Get` | src/useCatchesStore.ts:203-211 | one list call, nothing written; success replaces `catches` wholesale, failure leaves the state unchanged; the envelope of the server's reply is returned as received, so exactly one of `data` and `error` is set |
| `CatchesStore.Sync` | src/useCatchesStore.ts:235-296 | after sync both queues are empty, the catch list and `fetchStatus` are unchanged, and the new durable state is written |
| `CatchesStore.SyncCalls` | src/useCatchesStore.ts:243-255 | the bulk create is issued first and only if some queued id names a catch, carrying exactly the queued catches; the bulk delete is issued only if `deletedIDs` is non-empty, carrying that queue |
| `CatchesStore.SyncFailures` | src/useCatchesStore.ts:257-283 | transport errors yield one failure per batch item / queued id, in order; server-reported errors are taken as given; with a queue empty its failure list is overwritten with [] |
| `CatchesStore.TransportCreateFailures` | src/useCatchesStore.ts:260-262 | one create failure per batch item, same position, id and metadata, with no reasons |
| `CatchesStore.TransportDeleteFailures` | src/useCatchesStore.ts:277-280 | one delete failure per queued id, same position, carrying the transport error |
| `CatchesLaws.HydrateAfterUpdateStorage` | src/useCatchesStore.ts:213-233 | hydrating from what `updateStorage` wrote restores each supplied field, takes unsupplied fields from the writing state, and keeps the hydrating state's `fetchStatus` |
| `CatchesLaws.PersistedRoundTrip` | src/useCatchesStore.ts:41 | a written record is the durable part of the new state, so hydrating from it rebuilds that state except `fetchStatus` |
| `CatchesLaws.OfflineCreateThenDelete` | src/useCatchesStore.ts:80-93 | an offline delete of a just-created offline catch restores the exact pre-create state |
| `CatchesLaws.OnlineCreateThenDelete` | src/useCatchesStore.ts:104-116 | a successful online delete of a just-created catch (server id new to the list) restores the pre-create state |
| `CatchesLaws.DeleteRemovesPosition` | src/useCatchesStore.ts:129-140 | with unique ids, an offline or successful online delete removes exactly one position and keeps the order of the rest |
| `CatchesLaws.InitialValid` | src/useCatchesStore.ts:57-64 | the boot state satisfies the id invariant |
| `CatchesLaws.CreateKeepsValid` | src/useCatchesStore.ts:76-125 | `create` keeps ids unique, queued creates present and queued deletes absent, given a fresh temp id and a server id new to the store |
| `CatchesLaws.DeleteKeepsValid` | src/useCatchesStore.ts:127-201 | `delete` keeps the id invariant offline, and online when the id is not queued for creation |
| `CatchesLaws.OnlineDeleteLeavesQueuedID` | src/useCatchesStore.ts:183-200 | an online delete of an offline-created catch leaves its id in `createdIDs` with no catch behind it, breaking the invariant |
| `CatchesLaws.SyncKeepsValid` | src/useCatchesStore.ts:286-295 | `sync` keeps the id invariant |
| `CatchesLaws.SyncSendsEveryQueuedCreate` | src/useCatchesStore.ts:243-255 | under the invariant every queued create id is carried by the bulk create; when every catch of the list was created offline, the bulk create carries the whole list in order |
| `CatchesLaws.GetDropsPendingCreates` | src/useCatchesStore.ts:203-211 | a successful `get` replaces the list but keeps the create queue; if the server list holds none of the queued catches, the next sync sends no bulk create and the queued creates are lost |
| `CatchesLaws.SyncWithEmptyQueues` | src/useCatchesStore.ts:236-240 | with both queues empty sync issues no call and only clears the failure lists; a second sync changes nothing |
| `CatchesLaws.RunKeepsFetchStatus` | src/useCatchesStore.ts:74-297 | no sequence of create/delete/get/sync/hydrate changes `fetchStatus` |
| `CatchesLaws.NeverLeavesUnfetched` | src/useCatchesStore.ts:63 | every state reachable from boot has `fetchStatus` UNFETCHED |
| `CatchesLaws.OfflineRunKeepsValid` | src/useCatchesStore.ts:76-201 | any trace of offline creates, offline deletes and syncs keeps the id invariant |
| `Request.OrUnknown` | src/utils/request.ts:77 | an empty message becomes "Unknown error"; a non-empty one is kept; the result is never empty |
| `Request.BuildHeaders` | src/utils/request.ts:42-50 | outgoing header keys are the caller's plus Accept and Content-Type, plus Authorization for a non-empty token; JSON defaults fill only missing keys; caller values survive except an Authorization the token overrides; with an empty or absent token Authorization is present only if the caller gave it |
| `Request.Prepare` | src/utils/request.ts:17-50 | the call is refused locally (code 1, message naming the method) exactly when the method is POST or PUT and the body is missing or empty; otherwise the fetch carries the url, method (default GET), body and merged headers |
| `Request.Send` | src/utils/request.ts:24-105 | exactly one of `data`/`error` is set; `data` is set exactly when the body check passes and the fetch delivered a payload; every error message is non-empty |
| `Request.MissingBodyFailsLocally` | src/utils/request.ts:38-39 | a POST/PUT without body yields `{data: null, error: {1, "A body is required for the <method> method"}}` whatever the network would answer |
| `Request.DefaultIsGet` | src/utils/request.ts:30 | an omitted method is GET and never fails the body check |
| `Request.NotOkMapsStatus` | src/utils/request.ts:70-79 | a non-ok reply maps to `data` null, code = HTTP status, message = server message or "Unknown error" |
| `Request.ExceptionMapsToGeneric` | src/utils/request.ts:96-103 | a thrown exception maps to `data` null, code 1, the exception message or "Unknown error" |
| `NetworkStore.InitialOffline` | src/useNetworkStore.ts:17-19 | the boot flag is false |
| `NetworkStore.Update` | src/useNetworkStore.ts:23-26 | the flag becomes v, `{isNetwork: v}` is stored under "network", every other key is untouched |
| `NetworkStore.Hydrate` | src/useNetworkStore.ts:27-33 | with nothing stored under "network" the state is unchanged; otherwise the stored flag is adopted |
| `NetworkStore.UpdateIdempotent` | src/useNetworkStore.ts:23-26 | updating twice with the same value equals updating once |
| `NetworkStore.HydrateAfterUpdate` | src/useNetworkStore.ts:28-31 | hydrating after `update(v)` yields v |
| `Toast.PauseFor` | src/useToast.ts:41-44 | the pause is 5000 exactly when the options carry a non-empty action text and an action callback, and absent otherwise |
| `Toast.Show` | src/useToast.ts:40-53 | visible, title from the argument unless the options carry one, fade-out callback = onHide, pause as above whatever the caller passed, every option field (action text, offsets, durations, status, each callback except the fade-out one) overrides the current value when given, and an absent one keeps the current value |
| `Toast.ShowError` | src/useToast.ts:54-55 | exactly `show` with the same title and options, except that the status is ERROR whatever the options say |
| `Toast.ShowSuccess` | src/useToast.ts:56-57 | exactly `show` with the same title and options, except that the status is SUCCESS whatever the options say |
| `Toast.Hide` | src/useToast.ts:58 | hidden, title "", status ERROR, no pause, no fade-out callback; the action callback is kept |
| `Toast.OnHide` | src/useToast.ts:39 | `onHide` behaves exactly as `hide` |
| `Toast.HideResets` | src/useToast.ts:19-34 | hide resets every field to the initial record except the action callback |
| `Toast.HideIdempotent` | src/useToast.ts:39 | hide (and onHide) applied twice equals applied once |
| `Toast.ShowIdempotent` | src/useToast.ts:46-52 | showing the same toast twice equals showing it once |
| `Toast.HideAfterShow` | src/useToast.ts:40-58 | hiding after a show equals hiding before it, except for an action callback the options supplied |
| `Toast.ForcedStatus` | src/useToast.ts:54-57 | showError and showSuccess differ only in status |
| `Session.SetNetwork` | src/App.tsx:22-28 | the flag becomes v and is stored under "network" as `update` stores it; the store's own `sync` runs exactly on an offline-to-online change, leaving both queues empty |
| `Session.ReconnectFlushesQueues` | src/useCatchesStore.ts:249-295 | reconnecting with one queued create and one queued delete issues one bulk create then one bulk delete and empties both queues, whatever the outcome |
| `Session.NoSyncWithoutReconnect` | src/App.tsx:25 | going offline or staying online never runs sync |
| `Session.FirstRenderTrigger` | src/App.tsx:22-25 | with no previous flag (first render) sync runs exactly when the flag is true, so never with the boot flag, which is offline |
| `Session.HydrateNetwork` | src/useNetworkStore.ts:27-33 | the boot-time hydration adopts the stored flag (or keeps the current one when none is stored), writes nothing, and runs the store's own `sync` exactly when it turns the flag from false to true |
| `Session.BootAfterOnlineSession` | src/App.tsx:24-36 | a flag an earlier session stored as online makes the boot hydration from the offline initial flag run sync |

## Left out

- AsyncStorage, `JSON.stringify`/`JSON.parse` and `fetch` are foreign I/O. Storage is a map of typed records. Remote results are input parameters. A stored record that fails to parse is not modelled.
- `uuid` `v4` is replaced by an injected temporary id under a freshness precondition (`CatchesStore.Fresh`).
- The per-URL `AbortController` bookkeeping in `request` is concurrency and cancellation, and the controller never reaches `fetch`.
- The success-body path of `request` (`src/utils/request.ts:84-92`) assigns to an undeclared `result`. The ok payload is therefore an opaque input (`Reply.Delivered`). The source's success return `{data: result.data, error: null}` could leave both fields empty; `Request.Send`'s exactly-one-of `data`/`error` rests on this abstraction, in which a delivered reply always carries a payload.
- The fetch options `request` only passes through are not modelled: credentials, integrity, keepalive, mode, referrer and signal. Headers given as a `Headers` object or an array are not modelled either; only a plain record is.
- `bodyRequired` is a plain object, so a method named like an `Object.prototype` member (`constructor`, `toString`) would also look up as truthy. The model requires a body for POST and PUT only.
- Async interleaving is not modelled: each awaited step is taken in sequence. In the code, an action running during another's await could be overwritten, for example by the catch list `sync` snapshots at its start.
- `console.log` calls are left out.
- All React components and screens are left out. That includes the screen's guard that calls `get` while online and `UNFETCHED`.
- `src/hooks` is not part of this model. `usePrevious` is taken to give no value at the first render and the previous flag after that.
- Toast `description` and `themeOverride` are left out. They are set in the initial record but no typed option can change them.
- Option keys given explicitly as `undefined` are not distinguished from absent keys.
- The whole-object spread in the network store's hydration is modelled as reading the stored `isNetwork` only.
- CatchesStore.Delete: for an offline delete of an offline-created catch, states which ids remain in `createdIDs` but not their order.
- CatchesStore.Sync: does not state the order of the create batch in its own contract. `CatchList.CreateBatchAppend` covers it.

=== FILE: catch_list.dfy ===
/** Operations on the ordered catch list that the store's actions are built
    from: id lookup, removal by id, in-place id replacement and the
    selection of catches queued for creation. */
module CatchList {
  import opened Types
  import opened Seqs

  /** The ids present in a catch list. */
  function IdSet(cs: seq<Catch>): set<string> {
    set c | c in cs :: c.id
  }

  /** No two entries of the list share an id. */
  predicate UniqueIds(cs: seq<Catch>) {
    forall i, j :: 0 <= i < j < |cs| ==> cs[i].id != cs[j].id
  }

  lemma IdSetAppend(cs: seq<Catch>, c: Catch)
    ensures IdSet(cs + [c]) == IdSet(cs) + {c.id}
  {
    assert forall x :: x in cs + [c] <==> x in cs || x == c;
  }

  /** The list without any entry carrying `id`, others kept in order. */
  function RemoveId(cs: seq<Catch>, id: string): (r: seq<Catch>)
    ensures forall c :: c in r <==> c in cs && c.id != id
  {
    Filter(cs, (c: Catch) => c.id != id)
  }

  /** Removal by id takes exactly that id out of the list's ids. */
  lemma RemoveIdIds(cs: seq<Catch>, id: string)
    ensures IdSet(RemoveId(cs, id)) == IdSet(cs) - {id}
  {
    var r := RemoveId(cs, id);
    forall x | x in IdSet(cs) - {id} ensures x in IdSet(r) {
      var c :| c in cs && c.id == x;
      assert c in r;
    }
  }

  /** Removing an id that does not occur changes nothing. */
  lemma RemoveAbsent(cs: seq<Catch>, id: string)
    requires id !in IdSet(cs)
    ensures RemoveId(cs, id) == cs
  {
    var p := (c: Catch) => c.id != id;
    assert forall c :: c in cs ==> p(c) by {
      forall c | c in cs ensures p(c) {
        assert c.id in IdSet(cs);
      }
    }
    FilterKeepsAll(cs, p);
  }

  /** Removal by id distributes over concatenation. */
  lemma RemoveIdAppend(a: seq<Catch>, b: seq<Catch>, id: string)
    ensures RemoveId(a + b, id) == RemoveId(a, id) + RemoveId(b, id)
  {
    FilterAppend(a, b, (c: Catch) => c.id != id);
  }

  /** Removing the id of an entry just appended gives back the list, when
      that id did not occur before. */
  lemma RemoveAppended(cs: seq<Catch>, c: Catch)
    requires c.id !in IdSet(cs)
    ensures RemoveId(cs + [c], c.id) == cs
  {
    RemoveIdAppend(cs, [c], c.id);
    RemoveAbsent(cs, c.id);
    assert RemoveId([c], c.id) == [];
  }

  /** In a list with unique ids, the id at position `i` occurs neither
      before nor after it. */
  lemma UniqueAround(cs: seq<Catch>, i: nat)
    requires UniqueIds(cs)
    requires i < |cs|
    ensures cs[i].id !in IdSet(cs[..i])
    ensures cs[i].id !in IdSet(cs[i + 1..])
  {
    forall c | c in cs[..i] ensures c.id != cs[i].id {
      var j :| 0 <= j < i && cs[..i][j] == c;
      assert cs[j] == c;
    }
    forall c | c in cs[i + 1..] ensures c.id != cs[i].id {
      var j :| 0 <= j < |cs| - i - 1 && cs[i + 1..][j] == c;
      assert cs[i + 1 + j] == c;
    }
  }

  /** Removing the id of an entry that occurs nowhere else removes just
      that entry. */
  lemma RemoveSplit(a: seq<Catch>, c: Catch, b: seq<Catch>)
    requires c.id !in IdSet(a) && c.id !in IdSet(b)
    ensures RemoveId(a + [c] + b, c.id) == a + b
  {
    RemoveIdAppend(a + [c], b, c.id);
    RemoveAppended(a, c);
    RemoveAbsent(b, c.id);
  }

  /** Removing the entry at position `i` of a list with unique ids by its
      id removes exactly that position. */
  lemma RemoveIdAt(cs: seq<Catch>, i: nat)
    requires UniqueIds(cs)
    requires i < |cs|
    ensures RemoveId(cs, cs[i].id) == cs[..i] + cs[i + 1..]
  {
    UniqueAround(cs, i);
    assert cs == cs[..i] + [cs[i]] + cs[i + 1..];
    RemoveSplit(cs[..i], cs[i], cs[i + 1..]);
  }

  /** The list with every entry whose id is `from` given the id `to`. */
  function ReplaceId(cs: seq<Catch>, from: string, to: string): (r: seq<Catch>)
    ensures |r| == |cs|
    ensures forall i :: 0 <= i < |cs| ==> r[i].meta == cs[i].meta
    ensures forall i :: 0 <= i < |cs| && cs[i].id != from ==> r[i] == cs[i]
    ensures forall i :: 0 <= i < |cs| && cs[i].id == from ==> r[i].id == to
  {
    if |cs| == 0 then []
    else [if cs[0].id == from then cs[0].(id := to) else cs[0]] + ReplaceId(cs[1..], from, to)
  }

  /** Replacing the id of an entry just appended changes only that entry,
      when the id did not occur before. */
  lemma ReplaceAppended(cs: seq<Catch>, m: Meta, from: string, to: string)
    requires from !in IdSet(cs)
    ensures ReplaceId(cs + [Catch(from, m)], from, to) == cs + [Catch(to, m)]
  {
    var r := ReplaceId(cs + [Catch(from, m)], from, to);
    forall i | 0 <= i < |cs|
      ensures r[i] == cs[i]
    {
      assert (cs + [Catch(from, m)])[i] == cs[i];
      assert cs[i].id in IdSet(cs);
    }
  }

  /** `c` is the catch at the last position of `cs` that carries `id`. */
  ghost predicate IsLastWithId(cs: seq<Catch>, id: string, c: Catch) {
    exists i :: 0 <= i < |cs| && cs[i] == c && c.id == id && forall j :: i < j < |cs| ==> cs[j].id != id
  }

  /** The last entry carrying `id`, which `delete` reports as deleted. */
  function LastWithId(cs: seq<Catch>, id: string): (r: Option<Catch>)
    ensures r.Some? <==> id in IdSet(cs)
    ensures r.Some? ==> r.value in cs && r.value.id == id && IsLastWithId(cs, id, r.value)
  {
    if |cs| == 0 then None
    else if cs[|cs| - 1].id == id then
      assert IsLastWithId(cs, id, cs[|cs| - 1]) by {
        assert cs[|cs| - 1] == cs[|cs| - 1];
      }
      Some(cs[|cs| - 1])
    else
      var init := cs[..|cs| - 1];
      assert cs == init + [cs[|cs| - 1]];
      IdSetAppend(init, cs[|cs| - 1]);
      var r := LastWithId(init, id);
      assert r.Some? ==> IsLastWithId(cs, id, r.value) by {
        if r.Some? {
          var i :| 0 <= i < |init| && init[i] == r.value && r.value.id == id
            && forall j :: i < j < |init| ==> init[j].id != id;
          assert cs[i] == r.value;
        }
      }
      r
  }

  /** The catches queued for creation: those whose id is in `queued`, in
      list order. */
  function CreateBatch(cs: seq<Catch>, queued: seq<string>): (r: seq<Catch>)
    ensures forall c :: c in r <==> c in cs && c.id in queued
    ensures forall t :: t in queued && t in IdSet(cs) ==> t in IdSet(r)
    ensures |r| == 0 <==> forall t :: t in queued ==> t !in IdSet(cs)
  {
    var r := Filter(cs, (c: Catch) => c.id in queued);
    assert forall t :: t in queued && t in IdSet(cs) ==> t in IdSet(r) by {
      forall t | t in queued && t in IdSet(cs) ensures t in IdSet(r) {
        var c :| c in cs && c.id == t;
        assert c in r;
      }
    }
    assert |r| > 0 ==> r[0] in r;
    r
  }

  /** Batch selection keeps list order: the batch of a concatenation is the
      concatenation of the batches. */
  lemma CreateBatchAppend(a: seq<Catch>, b: seq<Catch>, queued: seq<string>)
    ensures CreateBatch(a + b, queued) == CreateBatch(a, queued) + CreateBatch(b, queued)
  {
    FilterAppend(a, b, (c: Catch) => c.id in queued);
  }

  /** When every catch is queued the batch is the whole list. */
  lemma CreateBatchAllQueued(cs: seq<Catch>, queued: seq<string>)
    requires forall c :: c in cs ==> c.id in queued
    ensures CreateBatch(cs, queued) == cs
  {
    FilterKeepsAll(cs, (c: Catch) => c.id in queued);
  }
}

=== FILE: catches_laws.dfy ===
/** Laws of the catch store that relate several actions: persistence round
    trips, create/delete as inverses, the id invariants the actions keep (and
    the one an online delete breaks), and the fact that no sequence of
    actions ever moves `fetchStatus`. */
module CatchesLaws {
  import opened Types
  import opened Seqs
  import opened CatchList
  import opened CatchesStore

  /** Hydrating from the record `updateStorage` wrote restores every field
      supplied to it, takes every other durable field from the state it
      was written from, and leaves `fetchStatus` as the hydrating state has
      it. */
  lemma HydrateAfterUpdateStorage(s: State, u: StorageUpdate, t: State, storage: Storage)
    ensures var h := Hydrate(t, Store(storage, UpdateStorage(s, u)));
      && h.catches == (if u.catches.Some? then u.catches.value else s.catches)
      && h.createdIDs == (if u.createdIDs.Some? then u.createdIDs.value else s.createdIDs)
      && h.createSyncFailures == (if u.createSyncFailures.Some? then u.createSyncFailures.value else s.createSyncFailures)
      && h.deletedIDs == (if u.deletedIDs.Some? then u.deletedIDs.value else s.deletedIDs)
      && h.deleteSyncFailures == (if u.deleteSyncFailures.Some? then u.deleteSyncFailures.value else s.deleteSyncFailures)
      && h.fetchStatus == t.fetchStatus
  {
  }

  /** Whatever an action writes is the durable part of its new state, so
      hydrating from it in a fresh process rebuilds that state exactly,
      apart from `fetchStatus`, which is never stored. */
  lemma PersistedRoundTrip<R>(step: Step<R>, boot: State, storage: Storage)
    requires step.written == Some(Durable(step.state))
    ensures Hydrate(boot, Store(storage, step.written.value)) == step.state.(fetchStatus := boot.fetchStatus)
  {
  }

  /** Deleting, offline, a catch just created offline undoes the create
      completely: the state is the one before the create. */
  lemma OfflineCreateThenDelete(s: State, meta: Meta, tempID: string, r1: Outcome<Catch>, r2: Outcome<()>)
    requires Fresh(s, tempID)
    ensures Delete(Create(s, meta, false, tempID, r1).state, tempID, false, r2).state == s
  {
    var s1 := Create(s, meta, false, tempID, r1).state;
    IdSetAppend(s.catches, Catch(tempID, meta));
    RemoveAppended(s.catches, Catch(tempID, meta));
    WithoutAppended(s.createdIDs, tempID);
  }

  /** Deleting, online and successfully, a catch just created online under
      a server id that was new to the list gives back the original list. */
  lemma OnlineCreateThenDelete(s: State, meta: Meta, tempID: string, server: Catch)
    requires Fresh(s, tempID)
    requires server.id !in IdSet(s.catches)
    ensures Delete(Create(s, meta, true, tempID, Ok(server)).state, server.id, true, Ok(())).state == s
  {
    IdSetAppend(s.catches, Catch(server.id, meta));
    RemoveAppended(s.catches, Catch(server.id, meta));
  }

  /** A delete that finds the entry at position `i` of a list with unique
      ids removes exactly that position, offline or after a successful
      remote delete. */
  lemma DeleteRemovesPosition(s: State, i: nat, online: bool, reply: Outcome<()>)
    requires UniqueIds(s.catches) && i < |s.catches|
    requires online ==> reply.Ok?
    ensures Delete(s, s.catches[i].id, online, reply).state.catches == s.catches[..i] + s.catches[i + 1..]
  {
    assert s.catches[i].id in IdSet(s.catches);
    RemoveIdAt(s.catches, i);
  }

  /** The store's id invariant: catch ids are unique, every queued create
      names a catch in the list, and no queued delete does. */
  predicate Valid(s: State) {
    && UniqueIds(s.catches)
    && (forall t :: t in s.createdIDs ==> t in IdSet(s.catches))
    && (forall t :: t in s.deletedIDs ==> t !in IdSet(s.catches))
  }

  lemma InitialValid()
    ensures Valid(Initial)
  {
  }

  lemma UniqueAppend(cs: seq<Catch>, c: Catch)
    requires UniqueIds(cs) && c.id !in IdSet(cs)
    ensures UniqueIds(cs + [c])
  {
    forall i, j | 0 <= i < j < |cs| + 1
      ensures (cs + [c])[i].id != (cs + [c])[j].id
    {
      if j == |cs| {
        assert cs[i] in cs;
      }
    }
  }

  /** `create` keeps the invariant, provided the server's id (if any) is
      new to the list and not queued for deletion. */
  lemma CreateKeepsValid(s: State, meta: Meta, online: bool, tempID: string, reply: Outcome<Catch>)
    requires Valid(s) && Fresh(s, tempID)
    requires online && reply.Ok? ==> reply.payload.id !in IdSet(s.catches) && reply.payload.id !in s.deletedIDs
    ensures Valid(Create(s, meta, online, tempID, reply).state)
  {
    var id := if online && reply.Ok? then reply.payload.id else tempID;
    if !online || reply.Ok? {
      UniqueAppend(s.catches, Catch(id, meta));
      IdSetAppend(s.catches, Catch(id, meta));
    }
  }

  /** Dropping one position keeps ids unique. */
  lemma UniqueWithout(cs: seq<Catch>, i: nat)
    requires UniqueIds(cs) && i < |cs|
    ensures UniqueIds(cs[..i] + cs[i + 1..])
  {
    var r := cs[..i] + cs[i + 1..];
    forall a, b | 0 <= a < b < |r| ensures r[a].id != r[b].id {
      var a' := if a < i then a else a + 1;
      var b' := if b < i then b else b + 1;
      assert r[a] == cs[a'];
      assert r[b] == cs[b'];
    }
  }

  /** Removal by id keeps ids unique. */
  lemma RemoveKeepsUnique(cs: seq<Catch>, id: string)
    requires UniqueIds(cs)
    ensures UniqueIds(RemoveId(cs, id))
  {
    if id in IdSet(cs) {
      var c :| c in cs && c.id == id;
      var i :| 0 <= i < |cs| && cs[i] == c;
      RemoveIdAt(cs, i);
      UniqueWithout(cs, i);
    } else {
      RemoveAbsent(cs, id);
    }
  }

  /** `delete` keeps the invariant offline, and online unless the id is
      still queued for creation. */
  lemma DeleteKeepsValid(s: State, id: string, online: bool, reply: Outcome<()>)
    requires Valid(s)
    requires online ==> id !in s.createdIDs
    ensures Valid(Delete(s, id, online, reply).state)
  {
    RemoveKeepsUnique(s.catches, id);
    RemoveIdIds(s.catches, id);
  }

  /** An online delete leaves the create queue alone, so a catch created
      offline and deleted online before the next sync leaves its id queued
      with no catch behind it. */
  lemma OnlineDeleteLeavesQueuedID(s: State, meta: Meta, tempID: string, r1: Outcome<Catch>)
    requires Valid(s) && Fresh(s, tempID)
    ensures var created := Create(s, meta, false, tempID, r1).state;
      var deleted := Delete(created, tempID, true, Ok(())).state;
      && Valid(created)
      && tempID in deleted.createdIDs
      && tempID !in IdSet(deleted.catches)
      && !Valid(deleted)
  {
    var created := Create(s, meta, false, tempID, r1).state;
    CreateKeepsValid(s, meta, false, tempID, r1);
    IdSetAppend(s.catches, Catch(tempID, meta));
    RemoveIdIds(created.catches, tempID);
  }

  /** `sync` keeps the invariant. */
  lemma SyncKeepsValid(s: State, cr: Outcome<BulkCreateResponse>, dr: Outcome<BulkDeleteResponse>)
    requires Valid(s)
    ensures Valid(Sync(s, cr, dr).state)
  {
  }

  /** Under the invariant every queued create reaches the next bulk create;
      when every catch of the list was created offline, the bulk create
      carries the whole list, in order. */
  lemma SyncSendsEveryQueuedCreate(s: State, cr: Outcome<BulkCreateResponse>, dr: Outcome<BulkDeleteResponse>)
    requires Valid(s)
    ensures |s.createdIDs| > 0 ==>
      |Sync(s, cr, dr).calls| > 0 && Sync(s, cr, dr).calls[0].BulkCreateCall?
    ensures |s.createdIDs| > 0 ==>
      forall t :: t in s.createdIDs ==> t in IdSet(Sync(s, cr, dr).calls[0].batch)
    ensures |s.createdIDs| > 0 && (forall c :: c in s.catches ==> c.id in s.createdIDs) ==>
      Sync(s, cr, dr).calls[0] == BulkCreateCall(s.catches)
  {
    SyncCalls(s, cr, dr);
    if |s.createdIDs| > 0 {
      assert s.createdIDs[0] in s.createdIDs;
      assert HasPendingCreates(s);
      if forall c :: c in s.catches ==> c.id in s.createdIDs {
        CreateBatchAllQueued(s.catches, s.createdIDs);
      }
    }
  }

  /** `get` does not merge with the offline queues: when the server's list
      holds none of the catches queued for creation, the next `sync` sends
      no bulk create and those creates are dropped from the queue. */
  lemma GetDropsPendingCreates(s: State, list: seq<Catch>, cr: Outcome<BulkCreateResponse>, dr: Outcome<BulkDeleteResponse>)
    requires forall t :: t in s.createdIDs ==> t !in IdSet(list)
    ensures var fetched := Get(s, Ok(list)).state;
      var synced := Sync(fetched, cr, dr);
      && fetched.catches == list
      && fetched.createdIDs == s.createdIDs
      && (forall i :: 0 <= i < |synced.calls| ==> !synced.calls[i].BulkCreateCall?)
      && synced.state.createdIDs == []
      && synced.state.createSyncFailures == []
  {
    var fetched := Get(s, Ok(list)).state;
    SyncCalls(fetched, cr, dr);
    SyncFailures(fetched, cr, dr);
    assert !HasPendingCreates(fetched);
  }

  /** With both queues empty, `sync` issues no call, keeps the list and
      only clears the failure lists; running it again changes nothing. */
  lemma SyncWithEmptyQueues(s: State, cr: Outcome<BulkCreateResponse>, dr: Outcome<BulkDeleteResponse>,
                            cr2: Outcome<BulkCreateResponse>, dr2: Outcome<BulkDeleteResponse>)
    requires s.createdIDs == [] && s.deletedIDs == []
    ensures Sync(s, cr, dr).calls == []
    ensures Sync(s, cr, dr).state == s.(createSyncFailures := [], deleteSyncFailures := [])
    ensures Sync(Sync(s, cr, dr).state, cr2, dr2).state == Sync(s, cr, dr).state
  {
    SyncCalls(s, cr, dr);
    SyncFailures(s, cr, dr);
    SyncFailures(Sync(s, cr, dr).state, cr2, dr2);
  }

  /** One store action with the inputs the environment supplies. */
  datatype Action =
    | CreateAction(meta: Meta, online: bool, tempID: string, createReply: Outcome<Catch>)
    | DeleteAction(id: string, online: bool, deleteReply: Outcome<()>)
    | GetAction(listReply: Outcome<seq<Catch>>)
    | SyncAction(bulkCreateReply: Outcome<BulkCreateResponse>, bulkDeleteReply: Outcome<BulkDeleteResponse>)
    | HydrateAction(storage: Storage)

  /** The random temporary id of a create is fresh. */
  predicate Enabled(s: State, a: Action) {
    a.CreateAction? ==> Fresh(s, a.tempID)
  }

  function Apply(s: State, a: Action): State
    requires Enabled(s, a)
  {
    match a
    case CreateAction(meta, online, tempID, reply) => Create(s, meta, online, tempID, reply).state
    case DeleteAction(id, online, reply) => Delete(s, id, online, reply).state
    case GetAction(reply) => Get(s, reply).state
    case SyncAction(cr, dr) => Sync(s, cr, dr).state
    case HydrateAction(storage) => Hydrate(s, storage)
  }

  /** Every action of the trace is enabled in the state it meets. */
  predicate Runnable(s: State, trace: seq<Action>)
    decreases |trace|
  {
    |trace| == 0 || (Enabled(s, trace[0]) && Runnable(Apply(s, trace[0]), trace[1..]))
  }

  function Run(s: State, trace: seq<Action>): State
    requires Runnable(s, trace)
    decreases |trace|
  {
    if |trace| == 0 then s else Run(Apply(s, trace[0]), trace[1..])
  }

  /** No action moves `fetchStatus`. */
  lemma {:induction false} RunKeepsFetchStatus(s: State, trace: seq<Action>)
    requires Runnable(s, trace)
    ensures Run(s, trace).fetchStatus == s.fetchStatus
    decreases |trace|
  {
    if |trace| > 0 {
      RunKeepsFetchStatus(Apply(s, trace[0]), trace[1..]);
    }
  }

  /** Every state reachable from boot is still `UNFETCHED`. */
  lemma NeverLeavesUnfetched(trace: seq<Action>)
    requires Runnable(Initial, trace)
    ensures Run(Initial, trace).fetchStatus == Unfetched
  {
    RunKeepsFetchStatus(Initial, trace);
  }

  /** Offline creates and deletes, and syncs. */
  predicate OfflineAction(a: Action) {
    || (a.CreateAction? && !a.online)
    || (a.DeleteAction? && !a.online)
    || a.SyncAction?
  }

  /** A trace of offline actions and syncs keeps the id invariant. */
  lemma {:induction false} OfflineRunKeepsValid(s: State, trace: seq<Action>)
    requires Valid(s) && Runnable(s, trace)
    requires forall i :: 0 <= i < |trace| ==> OfflineAction(trace[i])
    ensures Valid(Run(s, trace))
    decreases |trace|
  {
    if |trace| > 0 {
      var a := trace[0];
      assert OfflineAction(a);
      if a.CreateAction? {
        CreateKeepsValid(s, a.meta, a.online, a.tempID, a.createReply);
      } else if a.DeleteAction? {
        DeleteKeepsValid(s, a.id, a.online, a.deleteReply);
      } else {
        SyncKeepsValid(s, a.bulkCreateReply, a.bulkDeleteReply);
      }
      assert forall i :: 0 <= i < |trace[1..]| ==> OfflineAction(trace[1..][i]) by {
        forall i | 0 <= i < |trace[1..]| ensures OfflineAction(trace[1..][i]) {
          assert trace[1..][i] == trace[i + 1];
        }
      }
      OfflineRunKeepsValid(Apply(s, a), trace[1..]);
    }
  }
}

=== FILE: catches_store.dfy ===
/** The offline-first catch store: the catch list, the two offline queues
    (ids created and ids deleted while offline), the failure lists of the
    last sync and the fetch status, with its actions as pure transitions.

    Each action takes the state, whether the device is online, and the
    outcome its remote call would report; it returns a `Step` holding the
    new state, the record written to durable storage (if any), the remote
    calls issued, in order, and the action's result. */
module CatchesStore {
  import opened Types
  import opened Seqs
  import opened CatchList

  /** Durable storage key of the store's record. */
  const StorageKey := "fish_catches"

  /** Error code and message of a delete aimed at an unknown id. */
  const NotFoundCode := 3
  const NotFoundMessage := "No catch found with provided id"

  datatype State = State(
    catches: seq<Catch>,
    createdIDs: seq<string>,
    createSyncFailures: seq<CreateError>,
    deletedIDs: seq<string>,
    deleteSyncFailures: seq<DeleteError>,
    fetchStatus: FetchStatus)

  /** The state at boot, before hydration. */
  const Initial := State([], [], [], [], [], Unfetched)

  /** The durable part of the state: everything except `fetchStatus`. */
  datatype Persisted = Persisted(
    catches: seq<Catch>,
    createdIDs: seq<string>,
    createSyncFailures: seq<CreateError>,
    deletedIDs: seq<string>,
    deleteSyncFailures: seq<DeleteError>)

  /** The partial record handed to `updateStorage`; `None` marks a field
      the caller did not supply. */
  datatype StorageUpdate = StorageUpdate(
    catches: Option<seq<Catch>>,
    createdIDs: Option<seq<string>>,
    createSyncFailures: Option<seq<CreateError>>,
    deletedIDs: Option<seq<string>>,
    deleteSyncFailures: Option<seq<DeleteError>>)

  /** Durable key-value storage, restricted to this store's records. */
  type Storage = map<string, Persisted>

  /** The remote calls the store issues. */
  datatype Call =
    | CreateCall(meta: Meta)
    | DeleteCall(id: string)
    | ListCall
    | BulkCreateCall(batch: seq<Catch>)
    | BulkDeleteCall(ids: seq<string>)

  /** What `create` hands back: the created catch, or on failure the
      submitted data so the caller can offer it again. */
  datatype CreateData = Created(item: Catch) | Submitted(meta: Meta)

  /** What `delete` hands back: the removed catch, or on a failed remote
      delete just the id. */
  datatype DeleteData = Removed(item: Catch) | Requested(id: string)

  datatype Step<+R> = Step(state: State, written: Option<Persisted>, calls: seq<Call>, result: R)

  function Durable(s: State): Persisted {
    Persisted(s.catches, s.createdIDs, s.createSyncFailures, s.deletedIDs, s.deleteSyncFailures)
  }

  function CatchesOnly(cs: seq<Catch>): StorageUpdate {
    StorageUpdate(Some(cs), None, None, None, None)
  }

  /** The record `updateStorage` writes: each field as supplied, or else as
      in the current state. */
  function UpdateStorage(s: State, u: StorageUpdate): Persisted {
    Persisted(
      u.catches.GetOr(s.catches),
      u.createdIDs.GetOr(s.createdIDs),
      u.createSyncFailures.GetOr(s.createSyncFailures),
      u.deletedIDs.GetOr(s.deletedIDs),
      u.deleteSyncFailures.GetOr(s.deleteSyncFailures))
  }

  /** Storage after writing the store's record. */
  function Store(storage: Storage, p: Persisted): Storage {
    storage[StorageKey := p]
  }

  /** `hydrateFromStorage`: take the five durable fields from storage when a
      record is there; otherwise keep the state. */
  function Hydrate(s: State, storage: Storage): (r: State)
    ensures r.fetchStatus == s.fetchStatus
    ensures StorageKey !in storage ==> r == s
    ensures StorageKey in storage ==> Durable(r) == storage[StorageKey]
  {
    if StorageKey in storage then
      var p := storage[StorageKey];
      s.(catches := p.catches, createdIDs := p.createdIDs, createSyncFailures := p.createSyncFailures,
         deletedIDs := p.deletedIDs, deleteSyncFailures := p.deleteSyncFailures)
    else s
  }

  /** A temporary id collides with nothing the store holds. */
  predicate Fresh(s: State, id: string) {
    id !in IdSet(s.catches) && id !in s.createdIDs && id !in s.deletedIDs
  }

  /** `create`: append the catch optimistically under `tempID`; offline,
      queue `tempID` for the next sync; online, issue the create call and
      either adopt the server's id in place or roll the append back. */
  function Create(s: State, meta: Meta, online: bool, tempID: string, reply: Outcome<Catch>)
    : (r: Step<RequestResponse<CreateData>>)
    requires Fresh(s, tempID)
    ensures r.written == Some(Durable(r.state))
    ensures r.state.deletedIDs == s.deletedIDs && r.state.fetchStatus == s.fetchStatus
    ensures r.state.createSyncFailures == s.createSyncFailures
    ensures r.state.deleteSyncFailures == s.deleteSyncFailures
    ensures !online ==>
      && r.state.catches == s.catches + [Catch(tempID, meta)]
      && r.state.createdIDs == s.createdIDs + [tempID]
      && r.calls == []
      && r.result == RequestResponse(Some(Created(Catch(tempID, meta))), None)
    ensures online ==> r.calls == [CreateCall(meta)] && r.state.createdIDs == s.createdIDs
    ensures online && reply.Ok? ==>
      && r.state.catches == s.catches + [Catch(reply.payload.id, meta)]
      && r.result == RequestResponse(Some(Created(reply.payload)), None)
    ensures online && reply.Err? ==>
      && r.state.catches == s.catches
      && r.result == RequestResponse(Some(Submitted(meta)), Some(ErrorInfo(reply.code, reply.message)))
  {
    var optimistic := Catch(tempID, meta);
    var optimisticCatches := s.catches + [optimistic];
    if !online then
      var s' := s.(catches := optimisticCatches, createdIDs := s.createdIDs + [tempID]);
      var u := StorageUpdate(Some(optimisticCatches), Some(s'.createdIDs), None, None, None);
      Step(s', Some(UpdateStorage(s', u)), [], RequestResponse(Some(Created(optimistic)), None))
    else
      match reply
      case Ok(server) =>
        var withServerID := ReplaceId(optimisticCatches, tempID, server.id);
        ReplaceAppended(s.catches, meta, tempID, server.id);
        var s' := s.(catches := withServerID);
        Step(s', Some(UpdateStorage(s', CatchesOnly(withServerID))), [CreateCall(meta)],
             RequestResponse(Some(Created(server)), None))
      case Err(code, message) =>
        var reverted := RemoveId(optimisticCatches, tempID);
        RemoveAppended(s.catches, optimistic);
        var s' := s.(catches := reverted);
        Step(s', Some(UpdateStorage(s', CatchesOnly(reverted))), [CreateCall(meta)],
             RequestResponse(Some(Submitted(meta)), Some(ErrorInfo(code, message))))
  }

  /** `delete`: fail with code 3 when no catch has `id`; otherwise remove
      every entry with that id optimistically, keeping the others in order,
      and report the last catch that carries `id`; offline, drop the id
      from the create queue if it was created offline or else queue it for
      deletion; online, issue the delete call and restore the list if it
      fails. */
  function Delete(s: State, id: string, online: bool, reply: Outcome<()>)
    : (r: Step<RequestResponse<DeleteData>>)
    ensures r.state.fetchStatus == s.fetchStatus
    ensures r.state.createSyncFailures == s.createSyncFailures
    ensures r.state.deleteSyncFailures == s.deleteSyncFailures
    ensures id !in IdSet(s.catches) ==>
      && r.state == s && r.written == None && r.calls == []
      && r.result == RequestResponse(None, Some(ErrorInfo(NotFoundCode, NotFoundMessage)))
    ensures id in IdSet(s.catches) ==> r.written == Some(Durable(r.state))
    ensures id in IdSet(s.catches) && (!online || reply.Ok?) ==>
      r.state.catches == RemoveId(s.catches, id)
    ensures id in IdSet(s.catches) && !online ==>
      && r.calls == []
      && (forall c :: c in r.state.catches <==> c in s.catches && c.id != id)
      && r.result.error == None
      && r.result.data.Some? && r.result.data.value.Removed?
      && r.result.data.value.item in s.catches && r.result.data.value.item.id == id
      && IsLastWithId(s.catches, id, r.result.data.value.item)
    ensures id in IdSet(s.catches) && !online && id in s.createdIDs ==>
      && (forall t :: t in r.state.createdIDs <==> t in s.createdIDs && t != id)
      && r.state.deletedIDs == s.deletedIDs
    ensures id in IdSet(s.catches) && !online && id !in s.createdIDs ==>
      r.state.createdIDs == s.createdIDs && r.state.deletedIDs == s.deletedIDs + [id]
    ensures id in IdSet(s.catches) && online ==>
      && r.calls == [DeleteCall(id)]
      && r.state.createdIDs == s.createdIDs
      && r.state.deletedIDs == s.deletedIDs
    ensures id in IdSet(s.catches) && online && reply.Err? ==>
      r.state == s && r.result == RequestResponse(Some(Requested(id)), Some(ErrorInfo(reply.code, reply.message)))
    ensures id in IdSet(s.catches) && online && reply.Ok? ==>
      && (forall c :: c in r.state.catches <==> c in s.catches && c.id != id)
      && r.result.error == None
      && r.result.data.Some? && r.result.data.value.Removed?
      && r.result.data.value.item in s.catches && r.result.data.value.item.id == id
      && IsLastWithId(s.catches, id, r.result.data.value.item)
  {
    var deleted := LastWithId(s.catches, id);
    if deleted.None? then
      Step(s, None, [], RequestResponse(None, Some(ErrorInfo(NotFoundCode, NotFoundMessage))))
    else
      var remaining := RemoveId(s.catches, id);
      if !online then
        var s' :=
          if id in s.createdIDs then s.(catches := remaining, createdIDs := Without(s.createdIDs, id))
          else s.(catches := remaining, deletedIDs := s.deletedIDs + [id]);
        var u :=
          if id in s.createdIDs then StorageUpdate(Some(remaining), Some(s'.createdIDs), None, None, None)
          else StorageUpdate(Some(remaining), None, None, Some(s'.deletedIDs), None);
        Step(s', Some(UpdateStorage(s', u)), [], RequestResponse(Some(Removed(deleted.value)), None))
      else
        match reply
        case Err(code, message) =>
          var s' := s;
          Step(s', Some(UpdateStorage(s', CatchesOnly(s.catches))), [DeleteCall(id)],
               RequestResponse(Some(Requested(id)), Some(ErrorInfo(code, message))))
        case Ok(_) =>
          var s' := s.(catches := remaining);
          Step(s', Some(UpdateStorage(s', CatchesOnly(remaining))), [DeleteCall(id)],
               RequestResponse(Some(Removed(deleted.value)), None))
  }

  /** `get`: issue the list call; on success replace the catches wholesale
      (without persisting them), on failure keep the state. The response is
      returned as received. */
  function Get(s: State, reply: Outcome<seq<Catch>>): (r: Step<RequestResponse<seq<Catch>>>)
    ensures r.calls == [ListCall] && r.written == None
    ensures r.result.data.Some? <==> reply.Ok?
    ensures r.result.error.Some? <==> reply.Err?
    ensures r.result == AsResponse(reply)
    ensures reply.Ok? ==> r.state == s.(catches := reply.payload) && r.result.data.value == reply.payload
    ensures reply.Err? ==> r.state == s && r.result.error == Some(ErrorInfo(reply.code, reply.message))
  {
    match reply
    case Ok(list) => Step(s.(catches := list), None, [ListCall], AsResponse(reply))
    case Err(_, _) => Step(s, None, [ListCall], AsResponse(reply))
  }

  /** The failure records of a bulk create that failed in transport: one
      per batch item, in order, with no reasons. */
  function TransportCreateFailures(batch: seq<Catch>): (r: seq<CreateError>)
    ensures |r| == |batch|
    ensures forall i :: 0 <= i < |batch| ==> r[i] == CreateError(batch[i].id, batch[i].meta, [])
  {
    if |batch| == 0 then []
    else [CreateError(batch[0].id, batch[0].meta, [])] + TransportCreateFailures(batch[1..])
  }

  /** The failure records of a bulk delete that failed in transport: one
      per queued id, in order, each carrying the transport error. */
  function TransportDeleteFailures(ids: seq<string>, e: ErrorInfo): (r: seq<DeleteError>)
    ensures |r| == |ids|
    ensures forall i :: 0 <= i < |ids| ==> r[i] == DeleteError(ids[i], Transport(e))
  {
    if |ids| == 0 then []
    else [DeleteError(ids[0], Transport(e))] + TransportDeleteFailures(ids[1..], e)
  }

  /** The create-sync failures of one sync run. */
  function CreateFailures(batch: seq<Catch>, reply: Outcome<BulkCreateResponse>): seq<CreateError> {
    if |batch| == 0 then []
    else match reply
      case Err(_, _) => TransportCreateFailures(batch)
      case Ok(response) => response.errors
  }

  /** The delete-sync failures of one sync run. */
  function DeleteFailures(ids: seq<string>, reply: Outcome<BulkDeleteResponse>): seq<DeleteError> {
    if |ids| == 0 then []
    else match reply
      case Err(code, message) => TransportDeleteFailures(ids, ErrorInfo(code, message))
      case Ok(response) => response.errors
  }

  /** `sync`: send the queued creates as one bulk create (when there are
      any) and the queued deletes as one bulk delete (when there are any),
      then empty both queues, overwrite both failure lists with this run's
      failures and persist. Server ids are not written back: the catch
      list stays as it was. */
  function Sync(s: State, createReply: Outcome<BulkCreateResponse>, deleteReply: Outcome<BulkDeleteResponse>)
    : (r: Step<()>)
    ensures r.state.catches == s.catches && r.state.fetchStatus == s.fetchStatus
    ensures r.state.createdIDs == [] && r.state.deletedIDs == []
    ensures r.written == Some(Durable(r.state))
  {
    var batch := CreateBatch(s.catches, s.createdIDs);
    var createCalls := if |batch| > 0 then [BulkCreateCall(batch)] else [];
    var deleteCalls := if |s.deletedIDs| > 0 then [BulkDeleteCall(s.deletedIDs)] else [];
    var s' := s.(createdIDs := [], deletedIDs := [],
                 createSyncFailures := CreateFailures(batch, createReply),
                 deleteSyncFailures := DeleteFailures(s.deletedIDs, deleteReply));
    var u := StorageUpdate(Some(s.catches), Some([]), Some(s'.createSyncFailures), Some([]), Some(s'.deleteSyncFailures));
    Step(s', Some(UpdateStorage(s', u)), createCalls + deleteCalls, ())
  }

  /** Some queued create id still names a catch in the list. */
  predicate HasPendingCreates(s: State) {
    exists t :: t in s.createdIDs && t in IdSet(s.catches)
  }

  /** `sync` issues the bulk create first and only when some queued id
      names a catch, sending exactly the queued catches; it issues the bulk
      delete only when ids are queued for deletion, sending that queue. */
  lemma SyncCalls(s: State, createReply: Outcome<BulkCreateResponse>, deleteReply: Outcome<BulkDeleteResponse>)
    ensures var calls := Sync(s, createReply, deleteReply).calls;
      && |calls| == (if HasPendingCreates(s) then 1 else 0) + (if |s.deletedIDs| > 0 then 1 else 0)
      && (HasPendingCreates(s) ==>
            calls[0] == BulkCreateCall(CreateBatch(s.catches, s.createdIDs))
            && forall c :: c in calls[0].batch <==> c in s.catches && c.id in s.createdIDs)
      && (|s.deletedIDs| > 0 ==> calls[|calls| - 1] == BulkDeleteCall(s.deletedIDs))
  {
    var batch := CreateBatch(s.catches, s.createdIDs);
    assert |batch| > 0 <==> HasPendingCreates(s);
  }

  /** A transport failure of the bulk create records one failure per
      queued catch, in list order and without reasons; one of the bulk
      delete records one failure per queued id, in order, carrying the
      transport error. With nothing queued both failure lists are emptied. */
  lemma SyncFailures(s: State, createReply: Outcome<BulkCreateResponse>, deleteReply: Outcome<BulkDeleteResponse>)
    ensures var r := Sync(s, createReply, deleteReply).state;
      var batch := CreateBatch(s.catches, s.createdIDs);
      && (createReply.Err? ==>
            |r.createSyncFailures| == |batch|
            && forall i :: 0 <= i < |batch| ==>
                 r.createSyncFailures[i] == CreateError(batch[i].id, batch[i].meta, []))
      && (deleteReply.Err? ==>
            |r.deleteSyncFailures| == |s.deletedIDs|
            && forall i :: 0 <= i < |s.deletedIDs| ==>
                 r.deleteSyncFailures[i] == DeleteError(s.deletedIDs[i], Transport(ErrorInfo(deleteReply.code, deleteReply.message))))
      && (!HasPendingCreates(s) ==> r.createSyncFailures == [])
      && (|s.deletedIDs| == 0 ==> r.deleteSyncFailures == [])
      && (createReply.Ok? && HasPendingCreates(s) ==> r.createSyncFailures == createReply.payload.errors)
      && (deleteReply.Ok? && |s.deletedIDs| > 0 ==> r.deleteSyncFailures == deleteReply.payload.errors)
  {
    var batch := CreateBatch(s.catches, s.createdIDs);
    assert |batch| > 0 <==> HasPendingCreates(s);
  }
}

=== FILE: network_store.dfy ===
/** The connectivity flag: set by `update`, persisted under the key
    "network", and reloaded at boot by `hydrateFromStorage`. */
module NetworkStore {

  const StorageKey := "network"

  datatype State = State(isNetwork: bool)

  /** The persisted record `{isNetwork}`. */
  datatype Record = Record(isNetwork: bool)

  type Storage = map<string, Record>

  /** The flag at boot: offline until told otherwise. */
  const Initial := State(false)

  /** `update(v)`: set the flag and persist it; other keys are untouched. */
  function Update(storage: Storage, v: bool): (r: (State, Storage))
    ensures r.0.isNetwork == v
    ensures StorageKey in r.1 && r.1[StorageKey] == Record(v)
    ensures forall k :: k != StorageKey ==> (k in r.1 <==> k in storage)
    ensures forall k :: k != StorageKey && k in storage ==> r.1[k] == storage[k]
  {
    (State(v), storage[StorageKey := Record(v)])
  }

  /** `hydrateFromStorage`: adopt the stored flag when there is one. */
  function Hydrate(s: State, storage: Storage): (r: State)
    ensures StorageKey !in storage ==> r == s
    ensures StorageKey in storage ==> r.isNetwork == storage[StorageKey].isNetwork
  {
    if StorageKey in storage then State(storage[StorageKey].isNetwork) else s
  }

  lemma InitialOffline()
    ensures !Initial.isNetwork
  {
  }

  /** Updating twice with the same value is updating once. */
  lemma UpdateIdempotent(storage: Storage, v: bool)
    ensures Update(Update(storage, v).1, v) == Update(storage, v)
  {
    var once := storage[StorageKey := Record(v)];
    assert once[StorageKey := Record(v)] == once;
  }

  /** Hydrating, from any state, after `update(v)` yields `v`. */
  lemma HydrateAfterUpdate(s: State, storage: Storage, v: bool)
    ensures Hydrate(s, Update(storage, v).1) == State(v)
    ensures Hydrate(s, Update(storage, v).1) == Update(storage, v).0
  {
  }
}

=== FILE: request.dfy ===
/** The pure part of the transport's `request`: the body check for write
    methods, the outgoing header merge with the bearer token, and the
    mapping of a reply (an exception, a non-ok status, or a payload) to the
    `{data, error}` envelope. The fetch itself is an input: `Reply`. */
module Request {
  import opened Types

  /** What the caller passes to `request`; `None` marks an omitted field. */
  datatype RequestSpec = RequestSpec(
    url: string,
    verb: Option<string>,
    body: Option<string>,
    headers: map<string, string>,
    token: Option<string>)

  /** The JSON body of a non-ok response: unreadable (reading it threw with
      the given message), or an object whose `message` may be absent. */
  datatype ErrorBody = Unreadable(reason: string) | ErrorJson(message: Option<string>)

  /** What the fetch produced: it threw, answered with a non-ok status, or
      answered ok with a payload. */
  datatype Reply<+T> = Threw(reason: string) | NotOk(status: int, body: ErrorBody) | Delivered(data: T)

  /** The fetch `request` issues once its input passes the body check. */
  datatype Fetch = Fetch(url: string, verb: string, headers: map<string, string>, body: Option<string>)

  const DefaultMethod := "GET"
  const JsonMediaType := "application/json"
  const UnknownError := "Unknown error"

  /** Code of every error raised inside `request` itself. */
  const GenericCode := 1

  function MethodOf(spec: RequestSpec): string {
    spec.verb.GetOr(DefaultMethod)
  }

  /** The methods whose calls must carry a body. */
  predicate BodyRequired(verb: string) {
    verb == "POST" || verb == "PUT"
  }

  function MissingBodyMessage(verb: string): string {
    "A body is required for the " + verb + " method"
  }

  /** A message, with the empty one replaced by "Unknown error". */
  function OrUnknown(message: string): (r: string)
    ensures |r| > 0
    ensures |message| > 0 ==> r == message
    ensures |message| == 0 ==> r == UnknownError
  {
    if |message| > 0 then message else UnknownError
  }

  /** The outgoing headers: JSON `Accept` and `Content-Type` unless the
      caller set those keys, the caller's headers, and a bearer
      `Authorization` whenever the token is non-empty. */
  function BuildHeaders(headers: map<string, string>, token: Option<string>): (r: map<string, string>)
    ensures r.Keys == headers.Keys + {"Accept", "Content-Type"} + (if Truthy(token) then {"Authorization"} else {})
    ensures "Accept" !in headers ==> r["Accept"] == JsonMediaType
    ensures "Content-Type" !in headers ==> r["Content-Type"] == JsonMediaType
    ensures Truthy(token) ==> r["Authorization"] == "Bearer " + token.value
    ensures forall k :: k in headers && !(k == "Authorization" && Truthy(token)) ==> r[k] == headers[k]
    ensures !Truthy(token) ==> ("Authorization" in r <==> "Authorization" in headers)
  {
    var merged := map["Accept" := JsonMediaType, "Content-Type" := JsonMediaType] + headers;
    if Truthy(token) then merged["Authorization" := "Bearer " + token.value] else merged
  }

  /** The local half of `request`: fail with code 1 when a write method has
      no body, otherwise the fetch to issue. */
  function Prepare(spec: RequestSpec): (r: Outcome<Fetch>)
    ensures r.Err? <==> BodyRequired(MethodOf(spec)) && !Truthy(spec.body)
    ensures r.Err? ==> r.code == GenericCode && r.message == MissingBodyMessage(MethodOf(spec))
    ensures r.Ok? ==>
      && r.payload.url == spec.url
      && r.payload.verb == MethodOf(spec)
      && r.payload.body == spec.body
      && r.payload.headers == BuildHeaders(spec.headers, spec.token)
  {
    var verb := MethodOf(spec);
    if BodyRequired(verb) && !Truthy(spec.body) then
      Err(GenericCode, MissingBodyMessage(verb))
    else
      Ok(Fetch(spec.url, verb, BuildHeaders(spec.headers, spec.token), spec.body))
  }

  /** `request`: the envelope for `spec` when the fetch (if issued)
      produces `reply`. */
  function Send<T>(spec: RequestSpec, reply: Reply<T>): (r: RequestResponse<T>)
    ensures (r.data.Some?) != (r.error.Some?)
    ensures r.data.Some? <==> Prepare(spec).Ok? && reply.Delivered?
    ensures r.data.Some? ==> r.data.value == reply.data
    ensures r.error.Some? ==> |r.error.value.message| > 0
  {
    match Prepare(spec)
    case Err(code, message) => RequestResponse(None, Some(ErrorInfo(code, message)))
    case Ok(_) =>
      match reply
      case Threw(reason) => RequestResponse(None, Some(ErrorInfo(GenericCode, OrUnknown(reason))))
      case NotOk(status, ErrorJson(message)) =>
        RequestResponse(None, Some(ErrorInfo(status, OrUnknown(message.GetOr("")))))
      case NotOk(_, Unreadable(reason)) => RequestResponse(None, Some(ErrorInfo(GenericCode, OrUnknown(reason))))
      case Delivered(data) => RequestResponse(Some(data), None)
  }

  /** A POST or PUT without a body fails locally with code 1 and a message
      naming the method, whatever the network would have answered. */
  lemma MissingBodyFailsLocally<T>(spec: RequestSpec, reply: Reply<T>, other: Reply<T>)
    requires BodyRequired(MethodOf(spec)) && !Truthy(spec.body)
    ensures Send(spec, reply) == RequestResponse(None, Some(ErrorInfo(1, MissingBodyMessage(MethodOf(spec)))))
    ensures Send(spec, reply) == Send(spec, other)
  {
  }

  /** A request that leaves the method out is a GET and is never refused
      for lacking a body. */
  lemma DefaultIsGet(spec: RequestSpec)
    requires spec.verb.None?
    ensures Prepare(spec).Ok? && Prepare(spec).payload.verb == "GET"
  {
  }

  /** A non-ok status becomes the error code, with the server's message or
      "Unknown error"; `data` is absent. */
  lemma NotOkMapsStatus<T>(spec: RequestSpec, status: int, message: Option<string>)
    requires Prepare(spec).Ok?
    ensures var r := Send<T>(spec, NotOk(status, ErrorJson(message)));
      && r.data.None?
      && r.error.Some? && r.error.value.code == status
      && (message.Some? && |message.value| > 0 ==> r.error.value.message == message.value)
      && (message.None? || message == Some("") ==> r.error.value.message == "Unknown error")
  {
  }

  /** An exception raised while fetching or reading the reply becomes code
      1 with its message or "Unknown error"; `data` is absent. */
  lemma ExceptionMapsToGeneric<T>(spec: RequestSpec, reply: Reply<T>)
    requires Prepare(spec).Ok?
    requires reply.Threw? || (reply.NotOk? && reply.body.Unreadable?)
    ensures var reason := if reply.Threw? then reply.reason else reply.body.reason;
      var r := Send(spec, reply);
      && r.data.None?
      && r.error == Some(ErrorInfo(1, if |reason| > 0 then reason else "Unknown error"))
  {
  }
}

=== FILE: seqs.dfy ===
/** Order-preserving filtering of sequences, the one list operation the
    store's `filter`, `forEach`-with-push and `includes` loops all reduce to. */
module Seqs {

  /** The elements of `s` satisfying `p`, in their original order. */
  function Filter<T(!new)>(s: seq<T>, p: T -> bool): (r: seq<T>)
    ensures |r| <= |s|
    ensures forall x :: x in r <==> x in s && p(x)
  {
    if |s| == 0 then []
    else
      assert s == [s[0]] + s[1..];
      (if p(s[0]) then [s[0]] else []) + Filter(s[1..], p)
  }

  /** Filtering distributes over concatenation, so order is preserved. */
  lemma {:induction false} FilterAppend<T(!new)>(a: seq<T>, b: seq<T>, p: T -> bool)
    ensures Filter(a + b, p) == Filter(a, p) + Filter(b, p)
  {
    if |a| == 0 {
      assert a + b == b;
    } else {
      assert (a + b)[0] == a[0];
      assert (a + b)[1..] == a[1..] + b;
      FilterAppend(a[1..], b, p);
    }
  }

  /** A filter that keeps every element returns its input. */
  lemma {:induction false} FilterKeepsAll<T(!new)>(s: seq<T>, p: T -> bool)
    requires forall x :: x in s ==> p(x)
    ensures Filter(s, p) == s
  {
    if |s| > 0 {
      assert s == [s[0]] + s[1..];
      FilterKeepsAll(s[1..], p);
    }
  }

  /** `s` without any occurrence of `x` (JavaScript's `filter(y => y !== x)`). */
  function Without<T(==,!new)>(s: seq<T>, x: T): (r: seq<T>)
    ensures x !in r
    ensures forall y :: y in r <==> y in s && y != x
  {
    Filter(s, (y: T) => y != x)
  }

  /** Removing a value that was just appended, and nowhere else, gives back
      the original sequence. */
  lemma WithoutAppended<T(!new)>(s: seq<T>, x: T)
    requires x !in s
    ensures Without(s + [x], x) == s
  {
    var p := (y: T) => y != x;
    FilterAppend(s, [x], p);
    FilterKeepsAll(s, p);
    assert Filter([x], p) == [];
  }
}

=== FILE: session.dfy ===
/** The app-level wiring between the connectivity flag and the catch store:
    a change of the flag from offline (or unknown, at first render) to
    online runs `sync`; any other change only updates the flag. */
module Session {
  import opened Types
  import opened CatchList
  import opened CatchesStore
  import NetworkStore

  /** The effect's condition: the previous flag was not true and the new
      one is. Before the first render there is no previous flag. */
  predicate SyncTrigger(previous: Option<bool>, current: bool) {
    !previous.GetOr(false) && current
  }

  datatype Transition = Transition(
    network: NetworkStore.State,
    networkStorage: NetworkStore.Storage,
    sync: Option<Step<()>>)

  /** Set the connectivity flag to `v` and, on an offline-to-online change,
      run `sync` on the catch store with the given bulk-call outcomes. */
  function SetNetwork(net: NetworkStore.State, networkStorage: NetworkStore.Storage, store: State, v: bool,
                      createReply: Outcome<BulkCreateResponse>, deleteReply: Outcome<BulkDeleteResponse>)
    : (r: Transition)
    ensures r.network.isNetwork == v
    ensures r.networkStorage == NetworkStore.Update(networkStorage, v).1
    ensures r.sync.Some? <==> !net.isNetwork && v
    ensures r.sync.Some? ==> r.sync.value == Sync(store, createReply, deleteReply)
    ensures r.sync.Some? ==> r.sync.value.state.createdIDs == [] && r.sync.value.state.deletedIDs == []
  {
    var (net', storage') := NetworkStore.Update(networkStorage, v);
    var sync := if SyncTrigger(Some(net.isNetwork), v) then Some(Sync(store, createReply, deleteReply)) else None;
    Transition(net', storage', sync)
  }

  /** Hydrate the connectivity flag from storage, as the boot effect does,
      and run `sync` when that turns the flag from false to true. Storage
      is only read. */
  function HydrateNetwork(net: NetworkStore.State, networkStorage: NetworkStore.Storage, store: State,
                          createReply: Outcome<BulkCreateResponse>, deleteReply: Outcome<BulkDeleteResponse>)
    : (r: Transition)
    ensures r.networkStorage == networkStorage
    ensures NetworkStore.StorageKey in networkStorage ==>
      r.network.isNetwork == networkStorage[NetworkStore.StorageKey].isNetwork
    ensures NetworkStore.StorageKey !in networkStorage ==> r.network == net
    ensures r.sync.Some? <==>
      && !net.isNetwork
      && NetworkStore.StorageKey in networkStorage
      && networkStorage[NetworkStore.StorageKey].isNetwork
    ensures r.sync.Some? ==> r.sync.value == Sync(store, createReply, deleteReply)
    ensures r.sync.Some? ==> r.sync.value.state.createdIDs == [] && r.sync.value.state.deletedIDs == []
  {
    var net' := NetworkStore.Hydrate(net, networkStorage);
    var sync := if SyncTrigger(Some(net.isNetwork), net'.isNetwork) then Some(Sync(store, createReply, deleteReply)) else None;
    Transition(net', networkStorage, sync)
  }

  /** A flag persisted as online by an earlier session's `update` makes the
      boot-time hydration from the initial offline flag run `sync`. */
  lemma BootAfterOnlineSession(before: NetworkStore.Storage, store: State,
                               createReply: Outcome<BulkCreateResponse>, deleteReply: Outcome<BulkDeleteResponse>)
    ensures var stored := NetworkStore.Update(before, true).1;
      var t := HydrateNetwork(NetworkStore.Initial, stored, store, createReply, deleteReply);
      && t.network.isNetwork
      && t.sync == Some(Sync(store, createReply, deleteReply))
  {
    NetworkStore.HydrateAfterUpdate(NetworkStore.Initial, before, true);
  }

  /** Reconnecting with one queued create and one queued delete issues
      exactly one bulk create and then one bulk delete, and empties both
      queues whatever the calls report. */
  lemma ReconnectFlushesQueues(net: NetworkStore.State, networkStorage: NetworkStore.Storage, store: State,
                               createReply: Outcome<BulkCreateResponse>, deleteReply: Outcome<BulkDeleteResponse>)
    requires !net.isNetwork
    requires |store.createdIDs| == 1 && store.createdIDs[0] in IdSet(store.catches)
    requires |store.deletedIDs| == 1
    ensures var t := SetNetwork(net, networkStorage, store, true, createReply, deleteReply);
      && t.sync.Some?
      && |t.sync.value.calls| == 2
      && t.sync.value.calls[0].BulkCreateCall?
      && t.sync.value.calls[1] == BulkDeleteCall(store.deletedIDs)
      && t.sync.value.state.createdIDs == [] && t.sync.value.state.deletedIDs == []
      && t.sync.value.state.catches == store.catches
  {
    SyncCalls(store, createReply, deleteReply);
    assert store.createdIDs[0] in store.createdIDs;
    assert HasPendingCreates(store);
  }

  /** Going offline, or staying online, never runs `sync`. */
  lemma NoSyncWithoutReconnect(net: NetworkStore.State, networkStorage: NetworkStore.Storage, store: State, v: bool,
                               createReply: Outcome<BulkCreateResponse>, deleteReply: Outcome<BulkDeleteResponse>)
    requires !v || net.isNetwork
    ensures SetNetwork(net, networkStorage, store, v, createReply, deleteReply).sync.None?
  {
  }

  /** At the first render there is no previous flag, so the effect runs
      `sync` exactly when the flag is already true; with the boot flag,
      which is offline, it does not. */
  lemma FirstRenderTrigger(current: bool)
    ensures SyncTrigger(None, current) <==> current
    ensures !SyncTrigger(None, NetworkStore.Initial.isNetwork)
  {
  }
}

=== FILE: toast.dfy ===
/** The toast notification store: `show` and its `showError` /
    `showSuccess` variants make the toast visible with the given title and
    options; `hide` and `onHide` put back the initial values.

    The store's `set` merges the given fields into the current state, so a
    field the options leave out keeps its current value, and `hide`, whose
    initial record has no `onActionPress` key, leaves that one alone.
    Callbacks are modelled by presence and identity only. */
module Toast {
  import opened Types

  /** A callback: one the caller supplied, or the store's own `onHide`. */
  datatype Callback = Supplied(tag: nat) | HideCallback

  datatype ToastState = ToastState(
    actionText: Option<string>,
    animatedBottomOffset: Option<int>,
    animationDuration: Option<int>,
    isVisible: bool,
    onActionPress: Option<Callback>,
    onAnimateInBegin: Option<Callback>,
    onAnimateInEnd: Option<Callback>,
    onAnimateOutBegin: Option<Callback>,
    onAnimateOutEnd: Option<Callback>,
    onPress: Option<Callback>,
    pauseDuration: Option<int>,
    status: Option<Status>,
    title: string)

  /** The options of `show`; `None` marks a key the caller left out. */
  datatype ToastOptions = ToastOptions(
    title: Option<string>,
    actionText: Option<string>,
    animatedBottomOffset: Option<int>,
    animationDuration: Option<int>,
    onActionPress: Option<Callback>,
    onAnimateInBegin: Option<Callback>,
    onAnimateInEnd: Option<Callback>,
    onAnimateOutBegin: Option<Callback>,
    onAnimateOutEnd: Option<Callback>,
    onPress: Option<Callback>,
    pauseDuration: Option<int>,
    status: Option<Status>)

  /** How long a toast with an action button stays up. */
  const ActionPause := 5000

  const Initial := ToastState(
    Some(""), None, None, false, None, None, None, None, None, None, None, Some(Status.Error), "")

  /** The value a supplied option gives a field, or else its current one. */
  function Merge<T>(option: Option<T>, current: Option<T>): (r: Option<T>)
    ensures option.Some? ==> r == option
    ensures option.None? ==> r == current
  {
    if option.Some? then option else current
  }

  /** The pause `show` sets: 5000 when the options carry both a non-empty
      action text and an action callback, otherwise none. */
  function PauseFor(o: ToastOptions): (r: Option<int>)
    ensures r == Some(ActionPause) <==> Truthy(o.actionText) && o.onActionPress.Some?
    ensures r.None? <==> !(Truthy(o.actionText) && o.onActionPress.Some?)
  {
    if Truthy(o.actionText) && o.onActionPress.Some? then Some(ActionPause) else None
  }

  /** `show`: make the toast visible with `title` (unless the options carry
      their own), merge the options in, recompute the pause and make the
      fade-out callback `onHide`. */
  function Show(s: ToastState, title: string, o: ToastOptions): (r: ToastState)
    ensures r.isVisible
    ensures r.title == (if o.title.Some? then o.title.value else title)
    ensures r.onAnimateOutEnd == Some(HideCallback)
    ensures r.pauseDuration == PauseFor(o)
    ensures r.status == Merge(o.status, s.status)
    ensures r.actionText == Merge(o.actionText, s.actionText)
    ensures r.onActionPress == Merge(o.onActionPress, s.onActionPress)
    ensures r.animatedBottomOffset == Merge(o.animatedBottomOffset, s.animatedBottomOffset)
    ensures r.animationDuration == Merge(o.animationDuration, s.animationDuration)
    ensures r.onAnimateInBegin == Merge(o.onAnimateInBegin, s.onAnimateInBegin)
    ensures r.onAnimateInEnd == Merge(o.onAnimateInEnd, s.onAnimateInEnd)
    ensures r.onAnimateOutBegin == Merge(o.onAnimateOutBegin, s.onAnimateOutBegin)
    ensures r.onPress == Merge(o.onPress, s.onPress)
  {
    ToastState(
      Merge(o.actionText, s.actionText),
      Merge(o.animatedBottomOffset, s.animatedBottomOffset),
      Merge(o.animationDuration, s.animationDuration),
      true,
      Merge(o.onActionPress, s.onActionPress),
      Merge(o.onAnimateInBegin, s.onAnimateInBegin),
      Merge(o.onAnimateInEnd, s.onAnimateInEnd),
      Merge(o.onAnimateOutBegin, s.onAnimateOutBegin),
      Some(HideCallback),
      Merge(o.onPress, s.onPress),
      PauseFor(o),
      Merge(o.status, s.status),
      o.title.GetOr(title))
  }

  /** `showError`: `show` with the status forced to ERROR. */
  function ShowError(s: ToastState, title: string, o: ToastOptions): (r: ToastState)
    ensures r.status == Some(Status.Error)
    ensures r.isVisible
    ensures r == Show(s, title, o).(status := Some(Status.Error))
  {
    Show(s, title, o.(status := Some(Status.Error)))
  }

  /** `showSuccess`: `show` with the status forced to SUCCESS. */
  function ShowSuccess(s: ToastState, title: string, o: ToastOptions): (r: ToastState)
    ensures r.status == Some(Status.Success)
    ensures r.isVisible
    ensures r == Show(s, title, o).(status := Some(Status.Success))
  {
    Show(s, title, o.(status := Some(Status.Success)))
  }

  /** `hide`: merge the initial record back in. */
  function Hide(s: ToastState): (r: ToastState)
    ensures !r.isVisible && r.title == "" && r.status == Some(Status.Error)
    ensures r.pauseDuration.None? && r.onAnimateOutEnd.None?
    ensures r.onActionPress == s.onActionPress
  {
    Initial.(onActionPress := s.onActionPress)
  }

  /** `onHide`, the fade-out callback `show` installs: the same as `hide`. */
  function OnHide(s: ToastState): (r: ToastState)
    ensures r == Hide(s)
  {
    Initial.(onActionPress := s.onActionPress)
  }

  /** Hiding resets every field to its initial value except the action
      callback, which the initial record does not mention. */
  lemma HideResets(s: ToastState)
    ensures Hide(s).(onActionPress := None) == Initial
    ensures s.onActionPress.None? ==> Hide(s) == Initial
  {
  }

  /** Hiding twice is hiding once. */
  lemma HideIdempotent(s: ToastState)
    ensures Hide(Hide(s)) == Hide(s)
    ensures OnHide(OnHide(s)) == OnHide(s)
  {
  }

  /** Showing the same toast twice is showing it once. */
  lemma ShowIdempotent(s: ToastState, title: string, o: ToastOptions)
    ensures Show(Show(s, title, o), title, o) == Show(s, title, o)
  {
  }

  /** Hiding undoes showing, apart from an action callback the options
      supplied. */
  lemma HideAfterShow(s: ToastState, title: string, o: ToastOptions)
    ensures Hide(Show(s, title, o)) == Hide(s).(onActionPress := Merge(o.onActionPress, s.onActionPress))
    ensures o.onActionPress.None? ==> Hide(Show(s, title, o)) == Hide(s)
  {
  }

  /** Whatever status the options carry, `showError` shows ERROR and
      `showSuccess` shows SUCCESS, and the two agree on every other field. */
  lemma ForcedStatus(s: ToastState, title: string, o: ToastOptions)
    ensures ShowError(s, title, o).status == Some(Status.Error)
    ensures ShowSuccess(s, title, o).status == Some(Status.Success)
    ensures ShowError(s, title, o).(status := None) == ShowSuccess(s, title, o).(status := None)
  {
  }
}

=== FILE: types.dfy ===
/** Shared records of the catch log: the catch entity and its metadata, the
    request envelope every remote call and store action returns, the error
    records kept by the batched sync, and the two status enumerations. */
module Types {

  /** An optional value; `None` stands for JavaScript's `null`/`undefined`. */
  datatype Option<+T> = None | Some(value: T) {

    /** The carried value, or `default` when there is none. */
    function GetOr(default: T): T {
      if Some? then value else default
    }
  }

  /** A string that is present and not empty: how JavaScript's truthiness
      test treats an optional string. */
  predicate Truthy(o: Option<string>) {
    o.Some? && |o.value| > 0
  }

  /** The `{code, message}` object carried by a failed request. */
  datatype ErrorInfo = ErrorInfo(code: int, message: string)

  /** The envelope `{data, error}` returned by the transport and by every
      store action; a well-formed one populates exactly one field. */
  datatype RequestResponse<+T> = RequestResponse(data: Option<T>, error: Option<ErrorInfo>)

  /** What a remote call reports back to the store: a payload or an error. */
  datatype Outcome<+T> = Ok(payload: T) | Err(code: int, message: string)

  /** The envelope a remote call's outcome is delivered in. */
  function AsResponse<T>(o: Outcome<T>): (r: RequestResponse<T>)
    ensures (r.data.Some?) != (r.error.Some?)
    ensures r.data.Some? <==> o.Ok?
    ensures o.Ok? ==> r.data.value == o.payload
    ensures o.Err? ==> r.error.value == ErrorInfo(o.code, o.message)
  {
    match o
    case Ok(p) => RequestResponse(Some(p), None)
    case Err(code, message) => RequestResponse(None, Some(ErrorInfo(code, message)))
  }

  /** The user-entered part of a catch (a catch without its id). */
  datatype Meta = Meta(speciesName: string, length: string, weight: string)

  /** A logged catch. Its id is either a temporary one generated on the
      device or the one the server assigned. */
  datatype Catch = Catch(id: string, meta: Meta)

  /** A catch the bulk create did not accept, with the server's reasons
      (empty when the whole call failed in transport). */
  datatype CreateError = CreateError(id: string, meta: Meta, errors: seq<string>)

  /** Why a queued delete failed: a reason the server reported for that id,
      or the transport error of the whole bulk call. */
  datatype DeleteReason = Reported(text: string) | Transport(info: ErrorInfo)

  datatype DeleteError = DeleteError(id: string, error: DeleteReason)

  datatype BulkCreateResponse = BulkCreateResponse(ok: seq<Catch>, errors: seq<CreateError>)

  datatype BulkDeleteResponse = BulkDeleteResponse(ok: seq<Catch>, errors: seq<DeleteError>)

  datatype FetchStatus = Unfetched | Fetching | Success | Fail

  /** The notification status shown by the toast. */
  datatype Status = Error | Warning | Info | Success
}
